=== FILE: README.md ===
# Offers SDK: token state machine, retry dispatch and model validation

A Dafny model of the sequential core of the asynchronous Python Offers SDK:

- `AuthManager` (offers_sdk/auth.py): an in-memory access token and expiry, a
  token cache file on disk, and the rules by which `get_access_token` loads the
  cache, decides to refresh, calls POST /auth and persists the new token.
- `OffersAPIClient.register_product` and `get_product_with_offers`
  (offers_sdk/client.py): one token fetch, one domain request, dispatch on the
  reply's status, and on a 401 a single retry after clearing the in-memory token.
- `Offer.from_dict`, `Product.from_dict` and `Product.__post_init__`
  (offers_sdk/models.py): validation of decoded JSON into offers and products.

Everything is a pure function over explicit values. The authentication state
is a record `AuthState(accessToken, expiresAt, cache)`; the cache file is the
`cache` field. A clock reading, the outcome of the refresh request and whether
the cache file can be written are inputs (`AuthEnv`). A client call takes a
script: attempt 0 is the first request, attempt 1 the retry, each with its own
token-fetch inputs and HTTP reply. Each call returns its result, the
authentication state it leaves and the list of requests it sent. Exceptions are
values of one datatype (`Errors.Error`) with one constructor per concrete
exception class of offers_sdk/exceptions.py. The base class `AuthError` is never
raised itself and has no constructor; its only subclass is `TokenRefreshError`.
`IsTokenCacheError` holds for
`MissingTokenCacheKeysError` too, because that class is a subclass of
`TokenCacheError`. A built-in Python exception the SDK does not wrap is
`Uncaught(...)`.

Files: `python.dfy` (JSON values, truthiness, subscripting, `str.strip`),
`errors.dfy`, `models.dfy`, `auth.dfy`, `client.dfy` and
`client_properties.dfy` (the retry lemmas).

## What the model shows

- **Reuse.** A token held in memory whose expiry is later than the clock is
  returned as is. The cache is not read and no refresh is sent. After a
  refresh, a second call inside the 5-minute lifetime costs no request.
- **Cache reads.** The cache is read exactly when memory lacks the token or the
  expiry. An absent file changes nothing. A file without a truthy
  `access_token` and `expires_at` fails with `TokenCacheError`, because the
  load's catch-all re-wraps `MissingTokenCacheKeysError`. In that case neither
  memory field is assigned.
- **Refresh.** A refresh is sent exactly when, after that load, the token or
  expiry is missing or the clock has reached the expiry. Equality counts as
  expired. A 201 sets the token and an expiry 5 minutes after the reply, and the
  cache file then holds exactly that pair. Every other outcome raises and
  changes nothing. A failed save raises `TokenCacheError` after the new pair is
  already in memory.
- **Retry reuses the rejected token.** On a 401 the client clears only the
  in-memory token. The expiry stays set, so the retry's token fetch reloads the
  cache file. When the file still holds an unexpired token, the retry sends
  that token again without refreshing. This includes a token that was
  refreshed, saved and rejected moments before
  (`ClientProperties.RegisterRetryResendsRejectedToken`). The docstrings at
  offers_sdk/client.py:60 and :129 say the retry refreshes the access token. The
  code does that only when the cached token has expired or is missing.
- **Empty token.** A refresh reply carrying an empty token is saved to the
  cache file during the refresh and then returned. The next call reads the
  file and rejects it as a missing key (`Auth.EmptyTokenPoisonsCache`).

Where the SDK's docstrings and its code disagree, the model follows the code:

- Missing cache keys surface as `TokenCacheError`, not as
  `MissingTokenCacheKeysError` as offers_sdk/auth.py:46-47, :71 and :109 say.
  The load's catch-all re-wraps the latter.
- The cache is consulted when either the token or the expiry is missing, not
  only when no token is held in memory (offers_sdk/auth.py:60).
- A cache file that is incomplete does not lead to a refresh, contrary to
  offers_sdk/auth.py:27. The load raises `TokenCacheError` and
  `get_access_token` stops there (offers_sdk/auth.py:119-126). For an empty
  saved token this is `Auth.EmptyTokenPoisonsCache`.
- `Product.from_dict` with a malformed product id raises a plain `ValueError`,
  not the `InvalidProductDataError` of offers_sdk/models.py:88-90. Only the
  nested offers pass through `Offer.from_dict`'s handlers.

## Model

| member | source | states |
|---|---|---|
| `Python.Subscript` | offers_sdk/models.py:38-40 | `data[key]` succeeds exactly on an object holding the key and returns its value; otherwise `KeyError(key)` on an object, `TypeError` on anything else |
| `Python.StripStart` | offers_sdk/models.py:109 | the result is a suffix of the input, everything dropped is whitespace, and it does not start with whitespace |
| `Python.StripEnd` | offers_sdk/models.py:109 | the result is a prefix of the input, everything dropped is whitespace, and it does not end with whitespace |
| `Python.StripEmptyIffBlank` | offers_sdk/models.py:109-113 | `s.strip()` is empty exactly when every character of `s` is whitespace |
| `Models.ParseUuid` | offers_sdk/models.py:38 | `UUID(v)` succeeds exactly on a string in UUID syntax and keeps that text; a non-UUID string raises `ValueError`, any other value `TypeError` or `AttributeError` |
| `Models.CatchInOffer` | offers_sdk/models.py:56-59 | a `KeyError` becomes "missing required offer field" naming the key, a `ValueError` becomes "invalid value", anything else escapes unchanged |
| `Models.ParseOffer` | offers_sdk/models.py:29-59 | `Offer.from_dict` succeeds exactly on the well-formed offer dictionaries (uuid id, integer price and stock, and a uuid `product_id` when one is present and truthy); the offer carries exactly those values, with `product_id` `None` when absent or falsy; every failure is `InvalidOfferDataError` or an escaping `TypeError`/`AttributeError` |
| `Models.OfferErrorPrecedence` | offers_sdk/models.py:37-59 | which error is reported first: missing id, then invalid id, then missing price, then missing stock, then non-integer price before non-integer stock, then an invalid `product_id` |
| `Models.OfferJsonRoundTrip` | offers_sdk/models.py:50-55 | parsing the JSON object of an offer with valid uuids gives back the same offer |
| `Models.ParseOffers` | offers_sdk/models.py:96 | the comprehension succeeds exactly when every element is well formed, giving one offer per element in order; a failure is the error of the first element that fails |
| `Models.ParseOfferIterable` | offers_sdk/models.py:96 | a list parses element-wise; an object or string parses only when empty (its keys or characters are not dictionaries), to the empty list; any other value raises `TypeError` |
| `Models.NewProduct` | offers_sdk/models.py:99-113 | construction succeeds exactly for a UUID id and a name and description that are strings with a non-whitespace character, and keeps all four fields; otherwise `InvalidProductDataError` for the first failing check, id, then name, then description |
| `Models.ProductFromDict` | offers_sdk/models.py:81-97 | `Product.from_dict` succeeds exactly on a dictionary with a UUID-text `id`, a non-blank string `name` and `description`, and an `offers` entry (an empty list when absent) that iterates to well-formed offers; the product carries that id, name and description and one offer per element in order; a non-dictionary raises `TypeError`; a missing `id`, then `name`, then `description` raises `KeyError` naming it; a malformed id string raises `ValueError` |
| `Models.ProductFromDictRejectsBadOffer` | offers_sdk/models.py:96 | one malformed nested offer makes `Product.from_dict` fail with the error of the first malformed offer |
| `Auth.NewAuthManager` | offers_sdk/auth.py:49-53 | a new manager holds no token and no expiry; the cache file is whatever is on disk |
| `Auth.SaveTokenToFile` | offers_sdk/auth.py:84-97 | memory is never changed; on success the cache holds exactly the in-memory token and expiry; on failure `TokenCacheError` and nothing changes |
| `Auth.LoadCachedToken` | offers_sdk/auth.py:100-126 | an absent file changes nothing; the load succeeds exactly on a file with a truthy token and a parseable expiry and then holds both in memory; a file missing either key fails with `TokenCacheError` wrapping `MissingTokenCacheKeysError` and assigns nothing; every failure is a `TokenCacheError` and leaves the expiry alone; a file with both keys but an unparseable expiry puts its token in memory first and then fails with `TokenCacheError` wrapping `ValueError`, leaving the expiry as it was |
| `Auth.RefreshStatusError` | offers_sdk/auth.py:158-168 | 400, 401 and 422 give `TokenRefreshError` with three distinct reasons; a 201 without a token raises `KeyError`; any other status `UnexpectedAPIResponseError` |
| `Auth.RefreshAccessToken` | offers_sdk/auth.py:129-168 | a 201 puts the new token and an expiry 5 minutes after the reply in memory, then writes that pair to the cache file, or raises `TokenCacheError` with memory already updated; a network error or any other status raises and changes nothing |
| `Auth.LoadIfIncomplete` | offers_sdk/auth.py:75-76 | memory already holding token and expiry, or no cache file, leaves everything unchanged; a load without error leaves both in memory (or nothing changed when there was no file); an error is only possible when memory was incomplete, is a `TokenCacheError` and keeps the expiry; the cache file is never changed; a load from incomplete memory without error puts the cache file's token and expiry in memory |
| `Auth.GetAccessToken` | offers_sdk/auth.py:56-81 | reads the cache exactly when memory is incomplete; refreshes exactly when the load succeeded and the token is missing or expired at the clock, equality included; a usable held token is returned with nothing changed; any returned token is the one in memory and unexpired, or the fresh one whose pair is now in memory and on disk; only a successful refresh changes the cache file; a failure without a refresh attempt happens only when memory was incomplete, and is exactly the cache load's `TokenCacheError` with exactly the state the load left; a failed refresh raises exactly the refresh's error (`TokenRefreshError`, `UnexpectedAPIResponseError`, or `TokenCacheError` after a failed save with the new pair already in memory) and leaves the refresh's state |
| `Auth.MissingKeysFailCall` | offers_sdk/auth.py:116-126 | a call that has to read a cache file lacking either key fails with `TokenCacheError` wrapping `MissingTokenCacheKeysError`, assigns neither memory field and sends no refresh |
| `Auth.SaveThenLoad` | offers_sdk/auth.py:91-126 | loading the file a successful save wrote gives back the saved token and expiry, and an empty token comes back as a missing-key failure |
| `Auth.SecondCallWithinLifetimeReuses` | offers_sdk/auth.py:73-81 | after a refresh obtaining a non-empty token, a call before that token expires returns it without reading the cache or refreshing |
| `Auth.EmptyTokenPoisonsCache` | offers_sdk/auth.py:116-120 | once an empty token has been obtained, the next call reads the cache and fails with `TokenCacheError` |
| `Client.AccessTokenForRequest` | offers_sdk/client.py:75-78 | the token fetch's state and token are passed through; any failure becomes `TokenRefreshError` wrapping the original error |
| `Client.RegisteredProduct` | offers_sdk/client.py:99-107 | a 201 yields the caller's product under the reply's id, exactly when the reply holds a valid id and the product's name and description are non-blank |
| `Client.RegisterStatusError` | offers_sdk/client.py:115-122 | 409 gives `ProductAlreadyRegisteredError`, 422 `InvalidProductDataError`, any other status `UnexpectedAPIResponseError` |
| `Client.RegisterProduct` | offers_sdk/client.py:56-122 | at most two requests (one without retry), each carrying only the product's id, name and description; no request exactly when the first token fetch fails, and then the error is `TokenRefreshError`; the first request carries the fetched token; a result keeps the caller's name, description and offers; a second request only follows a 401 with retry on; the second request carries the token fetched from the state with the in-memory token cleared; every outcome with one request and no retry, a terminal 401 included, leaves the first fetch's state, so a rejected token stays in memory |
| `Client.OffersFromReply` | offers_sdk/client.py:157-164 | an undecodable body escapes as a decode error; every parsing failure becomes `InvalidOfferDataError`; a list body succeeds exactly when every element is well formed, one offer per element in order |
| `Client.OffersStatusError` | offers_sdk/client.py:172-179 | 404 gives `ProductNotFoundError`, 422 `InvalidProductDataError`, any other status `UnexpectedAPIResponseError` |
| `Client.GetProductWithOffers` | offers_sdk/client.py:125-179 | at most two requests for the given product id; no request exactly when the first token fetch fails, and then the error is `TokenRefreshError`; the first request carries the fetched token; a second request only follows a 401 with retry on; the second request carries the token fetched from the state with the in-memory token cleared; every outcome with one request and no retry, a terminal 401 included, leaves the first fetch's state, so a rejected token stays in memory |
| `ClientProperties.RegisterDispatch` | offers_sdk/client.py:99-122 | the status table of `register_product`: 201 result, 409, 422, other, terminal 401, and a 401 with retry on re-running from the cleared state |
| `ClientProperties.RegisterSucceeds` | offers_sdk/client.py:99-107 | a 201 with a valid id returns the product under that id after one request |
| `ClientProperties.RegisterSecondUnauthorizedIsTerminal` | offers_sdk/client.py:109-113 | 401 twice ends in `TokenRefreshError` after exactly two requests |
| `ClientProperties.RegisterRetryResendsCachedToken` | offers_sdk/client.py:109-111 | when the cache file holds a non-empty token unexpired at the retry's clock, the retry does not refresh and sends that token |
| `ClientProperties.RegisterRetryResendsRejectedToken` | offers_sdk/client.py:109-111 | a token just refreshed and rejected with 401 is sent again, unchanged, by the retry within its lifetime |
| `ClientProperties.RegisterRetryFetchFailure` | offers_sdk/client.py:75-78 | a failing token fetch on the retry surfaces as `TokenRefreshError` after one request |
| `ClientProperties.OffersDispatch` | offers_sdk/client.py:157-179 | the status table of `get_product_with_offers`: 200 result, 404, 422, other, terminal 401, and a 401 with retry on re-running from the cleared state |
| `ClientProperties.OffersRetryThenSuccess` | offers_sdk/client.py:166-169 | a 401 then a 200 with well-formed offers returns those offers in order after two requests |
| `ClientProperties.OffersRejectsBadElement` | offers_sdk/client.py:160-164 | a 200 whose list holds a malformed offer fails with `InvalidOfferDataError` |
| `ClientProperties.OffersRetryResendsCachedToken` | offers_sdk/client.py:166-169 | the offers retry also resends a cached, unexpired token |

## Left out

- HTTP transport, async/await, request headers, the base URL and the refresh
  token: each request is replaced by its scripted outcome, and a request is
  recorded by its bearer token and payload.
- Transport failures of the domain requests: an `httpx.RequestError` from the
  POST at offers_sdk/client.py:91 or the GET at offers_sdk/client.py:155
  escapes `register_product` and `get_product_with_offers` unwrapped. A
  `Reply` always has a status, so the model cannot express that path. Only the
  refresh request's network failure (`NetworkError`) is modelled.
- Exception message texts, including the response text quoted in them: each
  distinct message is a distinct reason tag instead.
- Cache file I/O: the file is a field of the state. A failed write leaves the
  file as it was; a write that truncates and then fails is not modelled.
- Cache values of other JSON types (a non-string `access_token` or
  `expires_at`) are not modelled. A file that cannot be opened, decoded or
  queried is `Corrupt` with the exception it raises.
- A 201 refresh reply whose body is not JSON or whose `access_token` is not a
  string: `Status(201)` stands for a 201 without the key.
- `isoformat`/`fromisoformat`: times are integer microseconds, and an
  unparseable expiry text is a distinct value. A naive timestamp in the cache
  would make the comparison with the aware clock raise `TypeError`; that is not
  modelled.
- Models.ParseUuid: accepts only the strings `IsUuidText` describes, the 32
  hex digits and the 8-4-4-4-12 hyphenated form. Python's `UUID(text)` accepts
  strictly more strings. It deletes every `-` and every `urn:` and `uuid:`,
  strips braces, and hands any 32 remaining characters to `int(_, 16)`. So it
  also takes hyphens in any position, a `0x` prefix, `_` separators, a sign and
  surrounding whitespace. For example, `"0-"` followed by 31 zeros is an offer
  id Python accepts and the model rejects. UUIDs are compared by their text,
  not by value.
- Python's bool-is-int quirk in the `isinstance(price, int)` checks: JSON
  booleans and integers are distinct kinds here.
- `OffersAPIClient.from_env` and environment variables:
  `MissingConfigurationError` is in the error datatype but nothing produces it.
- Concurrency and duplicate refreshes: each call is one sequential run.
- demo.py and the debug comments in client.py.


=== FILE: auth.dfy ===
/**
 The access-token state machine of `AuthManager`: an in-memory token and
 expiry, a cache file on disk, and the decision, on each `get_access_token`,
 whether to load the cache, whether to refresh, and what to persist.

 Times are integers counting microseconds (the resolution of `datetime`).
 The clock readings, the outcome of the POST /auth request and whether the
 cache file can be written are inputs (`AuthEnv`); the cache file itself is a
 field of the state.
 */
module Auth {
  import opened Python
  import opened Errors

  /** The fixed lifetime the client assumes for an access token: 5 minutes. */
  const TokenLifetime: int := 5 * 60 * 1000000

  /** The `expires_at` text found in the cache file: one that
      `datetime.fromisoformat` reads as the instant `at`, or any other text. */
  datatype ExpiryText = Iso(at: int) | NotIso(text: string)

  /** The cache file when it exists: either opening, decoding or querying it
      raises `cause`, or it is a JSON object with these two optional keys. */
  datatype CacheFile =
    | Corrupt(cause: PyException)
    | Record(accessToken: Option<string>, expiresAt: Option<ExpiryText>)

  datatype AuthState = AuthState(accessToken: Option<string>, expiresAt: Option<int>, cache: Option<CacheFile>)

  /** A fresh `AuthManager`: nothing in memory, whatever is on disk. */
  function NewAuthManager(cache: Option<CacheFile>): (st: AuthState)
    ensures !HasToken(st) && st.expiresAt.None? && st.cache == cache
  {
    AuthState(None, None, cache)
  }

  /** `bool(self.access_token)`: the empty string counts as no token. */
  predicate HasToken(st: AuthState)
  {
    st.accessToken.Some? && st.accessToken.value != ""
  }

  /** Memory holds both a token and an expiry, so the cache is not consulted. */
  predicate InMemory(st: AuthState)
  {
    HasToken(st) && st.expiresAt.Some?
  }

  /** The held token may be used at `now`: the expiry instant itself counts as expired. */
  predicate Usable(st: AuthState, now: int)
  {
    InMemory(st) && now < st.expiresAt.value
  }

  /** The cache file carries both keys with truthy values, as the load demands. */
  predicate HasBothKeys(f: CacheFile)
  {
    && f.Record?
    && f.accessToken.Some? && f.accessToken.value != ""
    && f.expiresAt.Some? && f.expiresAt.value != NotIso("")
  }

  /** The outcome of the POST /auth request. `Status(201)` stands for a 201
      whose body has no `access_token` key. */
  datatype RefreshOutcome = NetworkError | Created(token: string) | Status(code: int)

  /** The inputs one `get_access_token` call sees: the clock when it starts,
      the refresh reply, the clock when that reply is handled, and whether the
      cache file can be written. */
  datatype AuthEnv = AuthEnv(now: int, refresh: RefreshOutcome, refreshedAt: int, cacheWritable: bool)

  /** A state change that may end in an exception. */
  datatype Step = Step(error: Option<Error>, state: AuthState)

  /** One `get_access_token` call: its result, the state after it, and whether
      it read the cache file and whether it sent a refresh request. */
  datatype Fetch = Fetch(result: Result<string, Error>, state: AuthState, loaded: bool, refreshed: bool)

  /** `_save_token_to_file`: writes the in-memory pair to the cache file. Any
      failure, including an expiry that is not set, becomes `TokenCacheError`. */
  function SaveTokenToFile(st: AuthState, writable: bool): (s: Step)
    ensures s.state.accessToken == st.accessToken && s.state.expiresAt == st.expiresAt
    ensures s.error.None? <==> writable && st.expiresAt.Some?
    ensures s.error.None? ==> s.state.cache == Some(Record(st.accessToken, Some(Iso(st.expiresAt.value))))
    ensures s.error.Some? ==> s.error.value == TokenCacheError(WriteFailed) && s.state == st
  {
    if writable && st.expiresAt.Some? then
      Step(None, st.(cache := Some(Record(st.accessToken, Some(Iso(st.expiresAt.value))))))
    else
      Step(Some(TokenCacheError(WriteFailed)), st)
  }

  /** `_load_cached_token`. An absent file changes nothing and is no error.
      Every failure inside is re-wrapped by the catch-all as `TokenCacheError`,
      `MissingTokenCacheKeysError` included. The token is assigned before the
      expiry text is parsed, so an unparseable expiry leaves the cached token
      in memory. */
  function LoadCachedToken(st: AuthState): (s: Step)
    ensures s.state.cache == st.cache
    ensures st.cache.None? ==> s == Step(None, st)
    ensures s.error.None? <==> st.cache.None? || (HasBothKeys(st.cache.value) && st.cache.value.expiresAt.value.Iso?)
    ensures s.error.None? && st.cache.Some? ==>
              s.state.accessToken == st.cache.value.accessToken
              && s.state.expiresAt == Some(st.cache.value.expiresAt.value.at)
    ensures s.error.Some? ==> s.error.value.TokenCacheError?
                              && s.error.value.cache.LoadFailed? && s.state.expiresAt == st.expiresAt
    ensures st.cache.Some? && st.cache.value.Record? && !HasBothKeys(st.cache.value) ==>
              s == Step(Some(TokenCacheError(LoadFailed(MissingTokenCacheKeysError))), st)
    ensures s.error.Some? && s.state.accessToken != st.accessToken ==>
              HasBothKeys(st.cache.value) && s.state.accessToken == st.cache.value.accessToken
    ensures st.cache.Some? && HasBothKeys(st.cache.value) && st.cache.value.expiresAt.value.NotIso? ==>
              s == Step(Some(TokenCacheError(LoadFailed(Uncaught(ValueError)))),
                        st.(accessToken := st.cache.value.accessToken))
  {
    match st.cache
    case None => Step(None, st)
    case Some(Corrupt(cause)) => Step(Some(TokenCacheError(LoadFailed(Uncaught(cause)))), st)
    case Some(Record(token, expires)) =>
      if !HasBothKeys(Record(token, expires)) then
        Step(Some(TokenCacheError(LoadFailed(MissingTokenCacheKeysError))), st)
      else
        var withToken := st.(accessToken := token);
        match expires.value
        case Iso(at) => Step(None, withToken.(expiresAt := Some(at)))
        case NotIso(_) => Step(Some(TokenCacheError(LoadFailed(Uncaught(ValueError)))), withToken)
  }

  /** The exception for a refresh reply other than a 201 carrying a token. */
  function RefreshStatusError(code: int): (e: Error)
    ensures code == 400 ==> e == TokenRefreshError(MalformedRequest)
    ensures code == 401 ==> e == TokenRefreshError(InvalidRefreshToken)
    ensures code == 422 ==> e == TokenRefreshError(SchemaValidation)
    ensures code !in {201, 400, 401, 422} ==> e == UnexpectedAPIResponseError(code, AuthRefresh)
    ensures code == 201 ==> e == Uncaught(KeyError("access_token"))
  {
    if code == 201 then Uncaught(KeyError("access_token"))
    else if code == 400 then TokenRefreshError(MalformedRequest)
    else if code == 401 then TokenRefreshError(InvalidRefreshToken)
    else if code == 422 then TokenRefreshError(SchemaValidation)
    else UnexpectedAPIResponseError(code, AuthRefresh)
  }

  /** `_refresh_access_token`. On a 201 the memory is updated first and then
      saved, so a failed save still leaves the new pair in memory; every other
      outcome raises and changes nothing. */
  function RefreshAccessToken(st: AuthState, env: AuthEnv): (s: Step)
    ensures env.refresh.Created? ==>
              && s.state.accessToken == Some(env.refresh.token)
              && s.state.expiresAt == Some(env.refreshedAt + TokenLifetime)
    ensures env.refresh.Created? && env.cacheWritable ==>
              s.error.None?
              && s.state.cache == Some(Record(Some(env.refresh.token), Some(Iso(env.refreshedAt + TokenLifetime))))
    ensures env.refresh.Created? && !env.cacheWritable ==>
              s.error == Some(TokenCacheError(WriteFailed)) && s.state.cache == st.cache
    ensures !env.refresh.Created? ==> s.state == st && s.error.Some?
    ensures env.refresh.NetworkError? ==> s.error == Some(TokenRefreshError(NetworkFailure))
    ensures env.refresh.Status? ==> s.error == Some(RefreshStatusError(env.refresh.code))
  {
    match env.refresh
    case NetworkError => Step(Some(TokenRefreshError(NetworkFailure)), st)
    case Status(code) => Step(Some(RefreshStatusError(code)), st)
    case Created(token) =>
      SaveTokenToFile(st.(accessToken := Some(token), expiresAt := Some(env.refreshedAt + TokenLifetime)),
                      env.cacheWritable)
  }

  /** The first half of `get_access_token`: the cache is read only when
      memory lacks the token or the expiry. When it completes without error,
      memory holds both, unless there was no cache file to read. */
  function LoadIfIncomplete(st: AuthState): (s: Step)
    ensures InMemory(st) || st.cache.None? ==> s == Step(None, st)
    ensures s.error.None? ==> InMemory(s.state) || (st.cache.None? && s.state == st)
    ensures s.error.Some? ==> !InMemory(st) && s.error.value.TokenCacheError? && s.state.expiresAt == st.expiresAt
    ensures s.state.cache == st.cache
    ensures !InMemory(st) && st.cache.Some? && s.error.None? ==>
              && HasBothKeys(st.cache.value) && st.cache.value.expiresAt.value.Iso?
              && s.state.accessToken == st.cache.value.accessToken
              && s.state.expiresAt == Some(st.cache.value.expiresAt.value.at)
  {
    if InMemory(st) then Step(None, st) else LoadCachedToken(st)
  }

  /** `get_access_token`. */
  function GetAccessToken(st: AuthState, env: AuthEnv): (f: Fetch)
    ensures f.loaded <==> !InMemory(st)
    ensures f.refreshed <==> LoadIfIncomplete(st).error.None? && !Usable(LoadIfIncomplete(st).state, env.now)
    ensures Usable(st, env.now) ==> f == Fetch(Ok(st.accessToken.value), st, false, false)
    ensures f.result.Ok? ==> f.state.accessToken == Some(f.result.value)
    ensures f.result.Ok? && !f.refreshed ==>
              Usable(f.state, env.now) && f.state == LoadIfIncomplete(st).state
    ensures f.result.Ok? && f.refreshed ==>
              && env.refresh == Created(f.result.value)
              && f.state.expiresAt == Some(env.refreshedAt + TokenLifetime)
              && f.state.cache == Some(Record(Some(f.result.value), Some(Iso(env.refreshedAt + TokenLifetime))))
    ensures f.refreshed && !env.refresh.Created? ==>
              f.result.Err? && f.state == LoadIfIncomplete(st).state
    ensures f.state.cache != st.cache ==> f.refreshed && f.result.Ok?
    ensures f.result.Err? && !f.refreshed ==> f.loaded && IsTokenCacheError(f.result.error)
    ensures f.result.Err? && !f.refreshed ==>
              !InMemory(st) && LoadCachedToken(st).error == Some(f.result.error)
              && f.state == LoadCachedToken(st).state
    ensures f.refreshed && f.result.Err? ==>
              var r := RefreshAccessToken(LoadIfIncomplete(st).state, env);
              r.error == Some(f.result.error) && f.state == r.state
  {
    var afterLoad := LoadIfIncomplete(st);
    if afterLoad.error.Some? then
      Fetch(Err(afterLoad.error.value), afterLoad.state, !InMemory(st), false)
    else if Usable(afterLoad.state, env.now) then
      Fetch(Ok(afterLoad.state.accessToken.value), afterLoad.state, !InMemory(st), false)
    else
      var refreshed := RefreshAccessToken(afterLoad.state, env);
      if refreshed.error.Some? then
        Fetch(Err(refreshed.error.value), refreshed.state, !InMemory(st), true)
      else
        Fetch(Ok(refreshed.state.accessToken.value), refreshed.state, !InMemory(st), true)
  }

  /** Reading back the cache file a successful save wrote gives the saved
      token and expiry, unless the token was the empty string, which the load
      reports as a missing key. */
  lemma SaveThenLoad(st: AuthState, other: AuthState)
    requires st.accessToken.Some? && st.expiresAt.Some?
    ensures var saved := SaveTokenToFile(st, true).state.cache;
            var loaded := LoadCachedToken(other.(cache := saved));
            && (st.accessToken.value != "" ==>
                  loaded == Step(None, AuthState(st.accessToken, st.expiresAt, saved)))
            && (st.accessToken.value == "" ==>
                  loaded.error == Some(TokenCacheError(LoadFailed(MissingTokenCacheKeysError))))
  {
  }

  /** After a refresh that obtained a non-empty token, a second call whose
      clock is still inside the token's lifetime neither reads the cache nor
      refreshes: two calls within the window cost one refresh request. */
  lemma SecondCallWithinLifetimeReuses(st: AuthState, first: AuthEnv, second: AuthEnv)
    requires GetAccessToken(st, first).refreshed
    requires GetAccessToken(st, first).result.Ok? && GetAccessToken(st, first).result.value != ""
    requires second.now < first.refreshedAt + TokenLifetime
    ensures var f1 := GetAccessToken(st, first);
            GetAccessToken(f1.state, second) == Fetch(f1.result, f1.state, false, false)
  {
  }

  /** A cache file lacking either key makes a call that has to read it fail
      with `TokenCacheError`, assigning neither memory field and sending no
      refresh. */
  lemma MissingKeysFailCall(st: AuthState, env: AuthEnv)
    requires !InMemory(st) && st.cache.Some? && st.cache.value.Record? && !HasBothKeys(st.cache.value)
    ensures GetAccessToken(st, env) == Fetch(Err(TokenCacheError(LoadFailed(MissingTokenCacheKeysError))), st, true, false)
  {
  }

  /** A refresh that returned an empty token leaves a cache file whose token
      the next load rejects: once saved, the next call fails with
      `TokenCacheError` whatever its clock says. */
  lemma EmptyTokenPoisonsCache(st: AuthState, first: AuthEnv, second: AuthEnv)
    requires GetAccessToken(st, first).result == Ok("")
    ensures var f1 := GetAccessToken(st, first);
            var f2 := GetAccessToken(f1.state, second);
            f2.loaded && f2.result == Err(TokenCacheError(LoadFailed(MissingTokenCacheKeysError)))
  {
  }
}

=== FILE: client.dfy ===
/**
 `OffersAPIClient`: the two domain operations, each fetching an access token,
 issuing one request, dispatching on the reply's status, and on a 401 clearing
 the in-memory token and running once more with the retry flag off.

 The network is a script: attempt `k` of a call (0 for the first request, 1
 for the retry) sees the token-fetch inputs and the reply `script(k)`. Each
 result records the requests the call issued, in order.
 */
module Client {
  import opened Python
  import opened Errors
  import opened Models
  import opened Auth

  /** A reply to a domain request; `body` is `None` when it is not JSON. */
  datatype Reply = Reply(status: int, body: Option<Json>)

  /** What one attempt of a domain call sees from the outside world. */
  datatype Attempt = Attempt(auth: AuthEnv, reply: Reply)

  type Script = nat -> Attempt

  /** The script as seen from the retry. */
  function Later(script: Script): (later: Script)
    ensures later(0) == script(1)
  {
    (k: nat) => script(k + 1)
  }

  /** A domain request as sent: the bearer token and the payload. */
  datatype Request =
    | RegisterRequest(bearer: string, id: Uuid, name: string, description: string)
    | OffersRequest(bearer: string, productId: Uuid)

  /** The outcome of a client call: its result, the authentication state it
      leaves behind, and the domain requests it sent. */
  datatype Call<T> = Call(result: Result<T, Error>, auth: AuthState, sent: seq<Request>)

  /** The state a retry starts from: the first attempt's token fetch with the
      in-memory token cleared and everything else kept. */
  function RetryState(st: AuthState, script: Script): AuthState
  {
    GetAccessToken(st, script(0).auth).state.(accessToken := None)
  }

  /** The token fetch at the head of each attempt: any failure reaches the
      caller as `TokenRefreshError`. */
  function AccessTokenForRequest(st: AuthState, env: AuthEnv): (f: Fetch)
    ensures f.state == GetAccessToken(st, env).state
    ensures f.result.Ok? <==> GetAccessToken(st, env).result.Ok?
    ensures f.result.Ok? ==> f.result.value == GetAccessToken(st, env).result.value
    ensures f.result.Err? ==>
              f.result.error == TokenRefreshError(AccessTokenUnavailable(GetAccessToken(st, env).result.error))
  {
    var f := GetAccessToken(st, env);
    match f.result
    case Ok(_) => f
    case Err(e) => f.(result := Err(TokenRefreshError(AccessTokenUnavailable(e))))
  }

  /** The product a 201 from the register endpoint yields: the reply's id with
      the caller's name, description and offers, re-validated by the
      constructor. Failures to decode the reply escape unwrapped. */
  function RegisteredProduct(product: Product, body: Option<Json>): (r: Result<Product, Error>)
    ensures r.Ok? <==>
              && body.Some? && body.value.JObj? && "id" in body.value.fields
              && body.value.fields["id"].JStr? && IsUuidText(body.value.fields["id"].s)
              && !Blank(product.name) && !Blank(product.description)
    ensures r.Ok? ==> r.value == product.(id := Uuid(body.value.fields["id"].s))
  {
    match body
    case None => Err(Uncaught(JSONDecodeError))
    case Some(data) =>
      match Subscript(data, "id")
      case Err(e) => Err(Uncaught(e))
      case Ok(rawId) =>
        match ParseUuid(rawId)
        case Err(e) => Err(Uncaught(e))
        case Ok(id) => NewProduct(UuidArg(id), JStr(product.name), JStr(product.description), product.offers)
  }

  /** The exception for a register reply other than 201 or 401. */
  function RegisterStatusError(status: int): (e: Error)
    ensures status == 409 ==> e == ProductAlreadyRegisteredError
    ensures status == 422 ==> e == InvalidProductDataError(RejectedByServer)
    ensures status !in {409, 422} ==> e == UnexpectedAPIResponseError(status, RegisterCall)
  {
    if status == 409 then ProductAlreadyRegisteredError
    else if status == 422 then InvalidProductDataError(RejectedByServer)
    else UnexpectedAPIResponseError(status, RegisterCall)
  }

  /** `register_product(product, retry)`. */
  function RegisterProduct(st: AuthState, product: Product, retry: bool, script: Script): (c: Call<Product>)
    ensures |c.sent| <= (if retry then 2 else 1)
    ensures forall i :: 0 <= i < |c.sent| ==>
              c.sent[i].RegisterRequest? && c.sent[i].id == product.id
              && c.sent[i].name == product.name && c.sent[i].description == product.description
    ensures c.sent == [] <==> AccessTokenForRequest(st, script(0).auth).result.Err?
    ensures c.sent == [] ==>
              && c.result == Err(TokenRefreshError(AccessTokenUnavailable(GetAccessToken(st, script(0).auth).result.error)))
              && c.auth == GetAccessToken(st, script(0).auth).state
    ensures c.sent != [] ==> c.sent[0].bearer == GetAccessToken(st, script(0).auth).result.value
    ensures c.result.Ok? ==>
              c.result.value.name == product.name && c.result.value.description == product.description
              && c.result.value.offers == product.offers
    ensures |c.sent| == 2 ==> retry && script(0).reply.status == 401
    ensures c.sent != [] && !(retry && script(0).reply.status == 401) ==>
              c.auth == GetAccessToken(st, script(0).auth).state
    ensures |c.sent| == 2 ==>
              GetAccessToken(RetryState(st, script), script(1).auth).result.Ok?
              && c.sent[1].bearer == GetAccessToken(RetryState(st, script), script(1).auth).result.value
    decreases retry
  {
    var attempt := script(0);
    var fetch := AccessTokenForRequest(st, attempt.auth);
    match fetch.result
    case Err(e) => Call(Err(e), fetch.state, [])
    case Ok(token) =>
      var request := RegisterRequest(token, product.id, product.name, product.description);
      var status := attempt.reply.status;
      if status == 201 then
        Call(RegisteredProduct(product, attempt.reply.body), fetch.state, [request])
      else if status == 401 then
        if retry then
          var again := RegisterProduct(RetryState(st, script), product, false, Later(script));
          Call(again.result, again.auth, [request] + again.sent)
        else
          Call(Err(TokenRefreshError(Unauthorized)), fetch.state, [request])
      else
        Call(Err(RegisterStatusError(status)), fetch.state, [request])
  }

  /** The outcome of a 200 from the offers endpoint: the body must decode and
      iterate to offers; a decode failure escapes, any parsing failure is
      re-wrapped as `InvalidOfferDataError`. */
  function OffersFromReply(body: Option<Json>): (r: Result<seq<Offer>, Error>)
    ensures body.None? ==> r == Err(Uncaught(JSONDecodeError))
    ensures body.Some? && r.Err? ==> r.error.InvalidOfferDataError? && r.error.offer.ParsingOffers?
    ensures body.Some? && body.value.JArr? ==>
              var items := body.value.items;
              && (r.Ok? <==> forall i :: 0 <= i < |items| ==> WellFormedOffer(items[i]))
              && (r.Ok? ==> |r.value| == |items|
                            && forall i :: 0 <= i < |items| ==> ParseOffer(items[i]) == Ok(r.value[i]))
  {
    match body
    case None => Err(Uncaught(JSONDecodeError))
    case Some(data) =>
      match ParseOfferIterable(data)
      case Ok(offers) => Ok(offers)
      case Err(e) => Err(InvalidOfferDataError(ParsingOffers(e)))
  }

  /** The exception for an offers reply other than 200 or 401. */
  function OffersStatusError(status: int): (e: Error)
    ensures status == 404 ==> e == ProductNotFoundError
    ensures status == 422 ==> e == InvalidProductDataError(ProductIdRejected)
    ensures status !in {404, 422} ==> e == UnexpectedAPIResponseError(status, OffersCall)
  {
    if status == 404 then ProductNotFoundError
    else if status == 422 then InvalidProductDataError(ProductIdRejected)
    else UnexpectedAPIResponseError(status, OffersCall)
  }

  /** `get_product_with_offers(product_id, retry)`. */
  function GetProductWithOffers(st: AuthState, productId: Uuid, retry: bool, script: Script): (c: Call<seq<Offer>>)
    ensures |c.sent| <= (if retry then 2 else 1)
    ensures forall i :: 0 <= i < |c.sent| ==> c.sent[i].OffersRequest? && c.sent[i].productId == productId
    ensures c.sent == [] <==> AccessTokenForRequest(st, script(0).auth).result.Err?
    ensures c.sent == [] ==>
              && c.result == Err(TokenRefreshError(AccessTokenUnavailable(GetAccessToken(st, script(0).auth).result.error)))
              && c.auth == GetAccessToken(st, script(0).auth).state
    ensures c.sent != [] ==> c.sent[0].bearer == GetAccessToken(st, script(0).auth).result.value
    ensures |c.sent| == 2 ==> retry && script(0).reply.status == 401
    ensures c.sent != [] && !(retry && script(0).reply.status == 401) ==>
              c.auth == GetAccessToken(st, script(0).auth).state
    ensures |c.sent| == 2 ==>
              GetAccessToken(RetryState(st, script), script(1).auth).result.Ok?
              && c.sent[1].bearer == GetAccessToken(RetryState(st, script), script(1).auth).result.value
    decreases retry
  {
    var attempt := script(0);
    var fetch := AccessTokenForRequest(st, attempt.auth);
    match fetch.result
    case Err(e) => Call(Err(e), fetch.state, [])
    case Ok(token) =>
      var request := OffersRequest(token, productId);
      var status := attempt.reply.status;
      if status == 200 then
        Call(OffersFromReply(attempt.reply.body), fetch.state, [request])
      else if status == 401 then
        if retry then
          var again := GetProductWithOffers(RetryState(st, script), productId, false, Later(script));
          Call(again.result, again.auth, [request] + again.sent)
        else
          Call(Err(TokenRefreshError(Unauthorized)), fetch.state, [request])
      else
        Call(Err(OffersStatusError(status)), fetch.state, [request])
  }
}

=== FILE: client_properties.dfy ===
/**
 Properties of the client's status dispatch and of its one-shot retry.

 The retry clears only the in-memory token. The expiry stays set, so the
 retry's token fetch reads the cache file, and when that file still holds an
 unexpired token the retry sends it again without refreshing, even when it is
 the very token the server just rejected.
 */
module ClientProperties {
  import opened Python
  import opened Errors
  import opened Models
  import opened Auth
  import opened Client

  /** How `register_product` maps the first reply's status when the token
      fetch succeeded. */
  lemma RegisterDispatch(st: AuthState, product: Product, retry: bool, script: Script)
    requires GetAccessToken(st, script(0).auth).result.Ok?
    ensures var c := RegisterProduct(st, product, retry, script);
            var status := script(0).reply.status;
            && c.sent[0] == RegisterRequest(GetAccessToken(st, script(0).auth).result.value,
                                            product.id, product.name, product.description)
            && (status == 201 ==> c.result == RegisteredProduct(product, script(0).reply.body) && |c.sent| == 1)
            && (status == 409 ==> c.result == Err(ProductAlreadyRegisteredError) && |c.sent| == 1)
            && (status == 422 ==> c.result == Err(InvalidProductDataError(RejectedByServer)) && |c.sent| == 1)
            && (status !in {201, 401, 409, 422} ==>
                  c.result == Err(UnexpectedAPIResponseError(status, RegisterCall)) && |c.sent| == 1)
            && (status == 401 && !retry ==> c.result == Err(TokenRefreshError(Unauthorized)) && |c.sent| == 1)
            && (status == 401 && retry ==>
                  var again := RegisterProduct(RetryState(st, script), product, false, Later(script));
                  c == Call(again.result, again.auth, [c.sent[0]] + again.sent))
  {
  }

  /** A 201 whose body carries a valid id yields the caller's product under
      the server's id. */
  lemma RegisterSucceeds(st: AuthState, product: Product, retry: bool, script: Script,
                         fields: map<string, Json>, id: string)
    requires GetAccessToken(st, script(0).auth).result.Ok?
    requires script(0).reply == Reply(201, Some(JObj(fields)))
    requires "id" in fields && fields["id"] == JStr(id) && IsUuidText(id)
    requires !Blank(product.name) && !Blank(product.description)
    ensures var c := RegisterProduct(st, product, retry, script);
            c.result == Ok(product.(id := Uuid(id))) && |c.sent| == 1
  {
  }

  /** Two 401 replies end the call with `TokenRefreshError`, after exactly two
      requests. */
  lemma RegisterSecondUnauthorizedIsTerminal(st: AuthState, product: Product, script: Script)
    requires GetAccessToken(st, script(0).auth).result.Ok?
    requires GetAccessToken(RetryState(st, script), script(1).auth).result.Ok?
    requires script(0).reply.status == 401 && script(1).reply.status == 401
    ensures var c := RegisterProduct(st, product, true, script);
            c.result == Err(TokenRefreshError(Unauthorized)) && |c.sent| == 2
  {
  }

  /** When, after the first fetch, the cache file holds a non-empty token that
      is still unexpired at the retry's clock, a 401 makes the retry send that
      cached token, and the retry's fetch does not refresh. */
  lemma RegisterRetryResendsCachedToken(st: AuthState, product: Product, script: Script, token: string, expiry: int)
    requires GetAccessToken(st, script(0).auth).result.Ok?
    requires script(0).reply.status == 401
    requires GetAccessToken(st, script(0).auth).state.cache == Some(Record(Some(token), Some(Iso(expiry))))
    requires token != "" && script(1).auth.now < expiry
    ensures !GetAccessToken(RetryState(st, script), script(1).auth).refreshed
    ensures var c := RegisterProduct(st, product, true, script);
            |c.sent| == 2 && c.sent[1].bearer == token
  {
  }

  /** The case the retry was meant for: the first fetch refreshed and saved a
      token, and the server rejects it. Within that token's lifetime the retry
      sends the identical token again. */
  lemma RegisterRetryResendsRejectedToken(st: AuthState, product: Product, script: Script)
    requires GetAccessToken(st, script(0).auth).refreshed
    requires GetAccessToken(st, script(0).auth).result.Ok?
    requires GetAccessToken(st, script(0).auth).result.value != ""
    requires script(0).reply.status == 401
    requires script(1).auth.now < script(0).auth.refreshedAt + TokenLifetime
    ensures var c := RegisterProduct(st, product, true, script);
            |c.sent| == 2 && c.sent[0].bearer == c.sent[1].bearer
  {
  }

  /** A failing token fetch on the retry reaches the caller as
      `TokenRefreshError`, after the single first request. */
  lemma RegisterRetryFetchFailure(st: AuthState, product: Product, script: Script)
    requires GetAccessToken(st, script(0).auth).result.Ok?
    requires script(0).reply.status == 401
    requires GetAccessToken(RetryState(st, script), script(1).auth).result.Err?
    ensures var c := RegisterProduct(st, product, true, script);
            && c.result == Err(TokenRefreshError(AccessTokenUnavailable(
                                 GetAccessToken(RetryState(st, script), script(1).auth).result.error)))
            && |c.sent| == 1
  {
  }

  /** How `get_product_with_offers` maps the first reply's status when the
      token fetch succeeded. */
  lemma OffersDispatch(st: AuthState, productId: Uuid, retry: bool, script: Script)
    requires GetAccessToken(st, script(0).auth).result.Ok?
    ensures var c := GetProductWithOffers(st, productId, retry, script);
            var status := script(0).reply.status;
            && c.sent[0] == OffersRequest(GetAccessToken(st, script(0).auth).result.value, productId)
            && (status == 200 ==> c.result == OffersFromReply(script(0).reply.body) && |c.sent| == 1)
            && (status == 404 ==> c.result == Err(ProductNotFoundError) && |c.sent| == 1)
            && (status == 422 ==> c.result == Err(InvalidProductDataError(ProductIdRejected)) && |c.sent| == 1)
            && (status !in {200, 401, 404, 422} ==>
                  c.result == Err(UnexpectedAPIResponseError(status, OffersCall)) && |c.sent| == 1)
            && (status == 401 && !retry ==> c.result == Err(TokenRefreshError(Unauthorized)) && |c.sent| == 1)
            && (status == 401 && retry ==>
                  var again := GetProductWithOffers(RetryState(st, script), productId, false, Later(script));
                  c == Call(again.result, again.auth, [c.sent[0]] + again.sent))
  {
  }

  /** A 401 followed by a 200 whose body is a list of well-formed offers
      returns exactly those offers, one per element and in order. */
  lemma OffersRetryThenSuccess(st: AuthState, productId: Uuid, script: Script, items: seq<Json>)
    requires GetAccessToken(st, script(0).auth).result.Ok?
    requires GetAccessToken(RetryState(st, script), script(1).auth).result.Ok?
    requires script(0).reply.status == 401
    requires script(1).reply == Reply(200, Some(JArr(items)))
    requires forall i :: 0 <= i < |items| ==> WellFormedOffer(items[i])
    ensures var c := GetProductWithOffers(st, productId, true, script);
            && |c.sent| == 2
            && c.result.Ok? && |c.result.value| == |items|
            && forall i :: 0 <= i < |items| ==> ParseOffer(items[i]) == Ok(c.result.value[i])
  {
  }

  /** A 200 whose list holds an offer `Offer.from_dict` rejects fails the whole
      call with `InvalidOfferDataError`. */
  lemma OffersRejectsBadElement(st: AuthState, productId: Uuid, retry: bool, script: Script, k: nat)
    requires GetAccessToken(st, script(0).auth).result.Ok?
    requires script(0).reply.status == 200 && script(0).reply.body.Some? && script(0).reply.body.value.JArr?
    requires k < |script(0).reply.body.value.items| && !WellFormedOffer(script(0).reply.body.value.items[k])
    ensures var c := GetProductWithOffers(st, productId, retry, script);
            c.result.Err? && c.result.error.InvalidOfferDataError?
  {
  }

  /** The retry of `get_product_with_offers` resends a cached, unexpired
      token just as `register_product` does. */
  lemma OffersRetryResendsCachedToken(st: AuthState, productId: Uuid, script: Script, token: string, expiry: int)
    requires GetAccessToken(st, script(0).auth).result.Ok?
    requires script(0).reply.status == 401
    requires GetAccessToken(st, script(0).auth).state.cache == Some(Record(Some(token), Some(Iso(expiry))))
    requires token != "" && script(1).auth.now < expiry
    ensures var c := GetProductWithOffers(st, productId, true, script);
            |c.sent| == 2 && c.sent[1].bearer == token
  {
  }
}

=== FILE: errors.dfy ===
/**
 The SDK's exception hierarchy as one tagged datatype. Each constructor is one
 concrete exception class; its argument records which of the raising sites
 produced it (the information the source puts in the message text). The
 abstract base `AuthError` is never raised itself and has no constructor: its
 only subclass is `TokenRefreshError`. `isinstance` on `TokenCacheError` is
 `IsTokenCacheError`.
 */
module Errors {
  import opened Python

  /** Which HTTP call an unexpected status came from. */
  datatype ApiCall = AuthRefresh | RegisterCall | OffersCall

  /** Why a `TokenRefreshError` was raised. */
  datatype RefreshProblem =
    | NetworkFailure                        // the POST /auth never got a response
    | MalformedRequest                      // POST /auth answered 400
    | InvalidRefreshToken                   // POST /auth answered 401
    | SchemaValidation                      // POST /auth answered 422
    | AccessTokenUnavailable(cause: Error)   // the client re-wraps any failure of the token fetch
    | Unauthorized                          // a domain call answered 401 with no retry left

  /** Why a `TokenCacheError` was raised. */
  datatype CacheProblem =
    | LoadFailed(cause: Error)   // the load's catch-all re-wraps whatever was raised inside it
    | WriteFailed

  /** Why an `InvalidProductDataError` was raised. */
  datatype ProductProblem =
    | IdNotUuid
    | NameNotText
    | DescriptionNotText
    | RejectedByServer       // POST /products/register answered 422
    | ProductIdRejected      // GET /products/{id}/offers answered 422

  /** Why an `InvalidOfferDataError` was raised. */
  datatype OfferProblem =
    | MissingField(field: string)
    | InvalidValue
    | PriceNotInteger
    | StockNotInteger
    | ParsingOffers(cause: Error)   // the client re-wraps any failure while parsing the offer list

  datatype Error =
    | TokenRefreshError(refresh: RefreshProblem)
    | MissingConfigurationError
    | InvalidProductDataError(product: ProductProblem)
    | InvalidOfferDataError(offer: OfferProblem)
    | ProductAlreadyRegisteredError
    | UnexpectedAPIResponseError(status: int, call: ApiCall)
    | ProductNotFoundError
    | TokenCacheError(cache: CacheProblem)
    | MissingTokenCacheKeysError
    /** A built-in exception the SDK lets escape unwrapped. */
    | Uncaught(exception: PyException)

  /** `isinstance(e, TokenCacheError)`: `MissingTokenCacheKeysError` is a subclass. */
  predicate IsTokenCacheError(e: Error)
  {
    e.TokenCacheError? || e.MissingTokenCacheKeysError?
  }
}

=== FILE: models.dfy ===
/**
 The SDK's data model: offers and products, and their validation when built
 from decoded JSON (`Offer.from_dict`, `Product.from_dict`) or constructed
 directly (`Product.__post_init__`).
 */
module Models {
  import opened Python
  import opened Errors

  predicate IsHexDigit(c: char)
  {
    ('0' <= c <= '9') || ('a' <= c <= 'f') || ('A' <= c <= 'F')
  }

  /** The UUID texts the model accepts: 32 hex digits, or the hyphenated
      8-4-4-4-12 form. */
  predicate IsUuidText(s: string)
  {
    || (|s| == 32 && forall i :: 0 <= i < |s| ==> IsHexDigit(s[i]))
    || (|s| == 36 && forall i :: 0 <= i < |s| ==>
          if i == 8 || i == 13 || i == 18 || i == 23 then s[i] == '-' else IsHexDigit(s[i]))
  }

  /** A parsed UUID, identified by the text it was parsed from. */
  datatype Uuid = Uuid(text: string)

  /** `UUID(v)` applied to a decoded JSON value. A string that is not a UUID
      raises `ValueError`; `None` raises `TypeError` (no argument given); any
      other value raises `AttributeError` (it has no `replace`). */
  function ParseUuid(v: Json): (r: Result<Uuid, PyException>)
    ensures r.Ok? <==> v.JStr? && IsUuidText(v.s)
    ensures r.Ok? ==> r.value.text == v.s
    ensures r.Err? && v.JStr? ==> r.error == ValueError
    ensures r.Err? && !v.JStr? ==> r.error in {TypeError, AttributeError}
  {
    match v
    case JStr(s) => if IsUuidText(s) then Ok(Uuid(s)) else Err(ValueError)
    case JNull => Err(TypeError)
    case _ => Err(AttributeError)
  }

  datatype Offer = Offer(id: Uuid, price: int, itemsInStock: int, productId: Option<Uuid>)

  /** The two handlers around the body of `Offer.from_dict`: a `KeyError`
      becomes "missing required offer field", a `ValueError` becomes "invalid
      value"; everything else passes through. */
  function CatchInOffer(e: PyException): (r: Error)
    ensures e.KeyError? ==> r == InvalidOfferDataError(MissingField(e.key))
    ensures e == ValueError ==> r == InvalidOfferDataError(InvalidValue)
    ensures r.InvalidOfferDataError? || r == Uncaught(e)
    ensures !e.KeyError? && e != ValueError && e != JSONDecodeError ==> r == Uncaught(e)
  {
    match e
    case KeyError(k) => InvalidOfferDataError(MissingField(k))
    case ValueError => InvalidOfferDataError(InvalidValue)
    case JSONDecodeError => InvalidOfferDataError(InvalidValue)  // a subclass of ValueError
    case _ => Uncaught(e)
  }

  /** The offer's `product_id` is read only when present and truthy. */
  predicate HasProductId(fields: map<string, Json>)
  {
    "product_id" in fields && Truthy(fields["product_id"])
  }

  /** Independent description of the dictionaries `Offer.from_dict` accepts. */
  predicate WellFormedOffer(data: Json)
  {
    && data.JObj?
    && "id" in data.fields && data.fields["id"].JStr? && IsUuidText(data.fields["id"].s)
    && "price" in data.fields && data.fields["price"].JInt?
    && "items_in_stock" in data.fields && data.fields["items_in_stock"].JInt?
    && (HasProductId(data.fields) ==>
          data.fields["product_id"].JStr? && IsUuidText(data.fields["product_id"].s))
  }

  /** The offer `o` carries exactly the values found in the dictionary `data`. */
  predicate OfferReads(o: Offer, data: Json)
    requires WellFormedOffer(data)
  {
    && o.id == Uuid(data.fields["id"].s)
    && o.price == data.fields["price"].i
    && o.itemsInStock == data.fields["items_in_stock"].i
    && o.productId == (if HasProductId(data.fields) then Some(Uuid(data.fields["product_id"].s)) else None)
  }

  /** `Offer.from_dict(data)`. */
  function ParseOffer(data: Json): (r: Result<Offer, Error>)
    ensures r.Ok? <==> WellFormedOffer(data)
    ensures r.Ok? ==> OfferReads(r.value, data)
    ensures r.Err? ==> r.error.InvalidOfferDataError? || r.error == Uncaught(TypeError) || r.error == Uncaught(AttributeError)
  {
    match Subscript(data, "id")
    case Err(e) => Err(CatchInOffer(e))
    case Ok(rawId) =>
      match ParseUuid(rawId)
      case Err(e) => Err(CatchInOffer(e))
      case Ok(id) =>
        var fields := data.fields;
        if "price" !in fields then Err(InvalidOfferDataError(MissingField("price")))
        else if "items_in_stock" !in fields then Err(InvalidOfferDataError(MissingField("items_in_stock")))
        else if !fields["price"].JInt? then Err(InvalidOfferDataError(PriceNotInteger))
        else if !fields["items_in_stock"].JInt? then Err(InvalidOfferDataError(StockNotInteger))
        else if HasProductId(fields) then
          match ParseUuid(fields["product_id"])
          case Err(e) => Err(CatchInOffer(e))
          case Ok(pid) => Ok(Offer(id, fields["price"].i, fields["items_in_stock"].i, Some(pid)))
        else Ok(Offer(id, fields["price"].i, fields["items_in_stock"].i, None))
  }

  /** Which error `Offer.from_dict` reports when several things are wrong:
      the id is looked up and parsed first, then `price` and `items_in_stock`
      are looked up, then their types are checked, price first, and only then
      is `product_id` parsed. */
  lemma OfferErrorPrecedence(fields: map<string, Json>)
    ensures "id" !in fields ==>
      ParseOffer(JObj(fields)) == Err(InvalidOfferDataError(MissingField("id")))
    ensures "id" in fields && fields["id"].JStr? && !IsUuidText(fields["id"].s) ==>
      ParseOffer(JObj(fields)) == Err(InvalidOfferDataError(InvalidValue))
    ensures "id" in fields && fields["id"].JStr? && IsUuidText(fields["id"].s) ==>
      && ("price" !in fields ==>
            ParseOffer(JObj(fields)) == Err(InvalidOfferDataError(MissingField("price"))))
      && ("price" in fields && "items_in_stock" !in fields ==>
            ParseOffer(JObj(fields)) == Err(InvalidOfferDataError(MissingField("items_in_stock"))))
      && ("price" in fields && "items_in_stock" in fields && !fields["price"].JInt? ==>
            ParseOffer(JObj(fields)) == Err(InvalidOfferDataError(PriceNotInteger)))
      && ("price" in fields && "items_in_stock" in fields && fields["price"].JInt?
          && !fields["items_in_stock"].JInt? ==>
            ParseOffer(JObj(fields)) == Err(InvalidOfferDataError(StockNotInteger)))
      && ("price" in fields && "items_in_stock" in fields && fields["price"].JInt?
          && fields["items_in_stock"].JInt? && HasProductId(fields) && fields["product_id"].JStr?
          && !IsUuidText(fields["product_id"].s) ==>
            ParseOffer(JObj(fields)) == Err(InvalidOfferDataError(InvalidValue)))
  {
  }

  /** The JSON object the offers endpoint returns for an offer. */
  function OfferJson(o: Offer): Json
  {
    var base := map["id" := JStr(o.id.text), "price" := JInt(o.price), "items_in_stock" := JInt(o.itemsInStock)];
    match o.productId
    case None => JObj(base)
    case Some(pid) => JObj(base["product_id" := JStr(pid.text)])
  }

  predicate ValidOffer(o: Offer)
  {
    IsUuidText(o.id.text) && (o.productId.Some? ==> IsUuidText(o.productId.value.text))
  }

  /** Parsing the JSON form of an offer gives the offer back. */
  lemma OfferJsonRoundTrip(o: Offer)
    requires ValidOffer(o)
    ensures ParseOffer(OfferJson(o)) == Ok(o)
  {
  }

  /** `[Offer.from_dict(x) for x in items]`: every element in order, the first
      failure aborting the comprehension. */
  function ParseOffers(items: seq<Json>): (r: Result<seq<Offer>, Error>)
    ensures r.Ok? <==> forall i :: 0 <= i < |items| ==> WellFormedOffer(items[i])
    ensures r.Ok? ==> |r.value| == |items| && forall i :: 0 <= i < |items| ==> ParseOffer(items[i]) == Ok(r.value[i])
    ensures r.Err? ==> exists i :: 0 <= i < |items| && ParseOffer(items[i]) == Err(r.error)
                                   && forall j :: 0 <= j < i ==> WellFormedOffer(items[j])
    decreases |items|
  {
    if |items| == 0 then Ok([])
    else
      match ParseOffer(items[0])
      case Err(e) => Err(e)
      case Ok(first) =>
        match ParseOffers(items[1..])
        case Err(e) => Err(e)
        case Ok(rest) => Ok([first] + rest)
  }

  /** The decoded values that iterate to a list of offers: a list of
      well-formed offer dictionaries, or an empty object or string (iterating
      a non-empty one yields keys or characters, which are not dictionaries). */
  predicate IteratesToOffers(v: Json)
  {
    || (v.JArr? && forall i :: 0 <= i < |v.items| ==> WellFormedOffer(v.items[i]))
    || v == JStr([]) || v == JObj(map[])
  }

  /** Iterating a decoded JSON value and parsing each element as an offer. A
      list yields its elements; an object yields its keys and a string its
      characters; any other value is not iterable. */
  function ParseOfferIterable(v: Json): (r: Result<seq<Offer>, Error>)
    ensures r.Ok? <==> IteratesToOffers(v)
    ensures r.Ok? && v.JArr? ==> |r.value| == |v.items|
                                 && forall i :: 0 <= i < |v.items| ==> ParseOffer(v.items[i]) == Ok(r.value[i])
    ensures r.Ok? && !v.JArr? ==> r.value == []
    ensures r.Err? && !v.JArr? ==> r.error == Uncaught(TypeError)
  {
    match v
    case JArr(items) => ParseOffers(items)
    case JStr(s) => if |s| == 0 then Ok([]) else Err(Uncaught(TypeError))
    case JObj(fields) => if |fields| == 0 then Ok([]) else Err(Uncaught(TypeError))
    case _ => Err(Uncaught(TypeError))
  }

  datatype Product = Product(id: Uuid, name: string, description: string, offers: seq<Offer>)

  /** What was passed as a product's `id`: a UUID object or something else. */
  datatype IdArg = UuidArg(uuid: Uuid) | OtherArg

  /** A name or description `__post_init__` accepts. */
  ghost predicate NonBlankText(v: Json)
  {
    v.JStr? && !Blank(v.s)
  }

  /** `Product(id, name, description, offers)` with its `__post_init__`
      checks: the id first, then the name, then the description. */
  function NewProduct(id: IdArg, name: Json, description: Json, offers: seq<Offer>): (r: Result<Product, Error>)
    ensures r.Ok? <==> id.UuidArg? && NonBlankText(name) && NonBlankText(description)
    ensures r.Ok? ==> r.value == Product(id.uuid, name.s, description.s, offers)
    ensures !id.UuidArg? ==> r == Err(InvalidProductDataError(IdNotUuid))
    ensures id.UuidArg? && !NonBlankText(name) ==> r == Err(InvalidProductDataError(NameNotText))
    ensures id.UuidArg? && NonBlankText(name) && !NonBlankText(description) ==>
              r == Err(InvalidProductDataError(DescriptionNotText))
  {
    if !id.UuidArg? then Err(InvalidProductDataError(IdNotUuid))
    else if !name.JStr? || Strip(name.s) == [] then
      StripEmptyIffBlank(if name.JStr? then name.s else []);
      Err(InvalidProductDataError(NameNotText))
    else if !description.JStr? || Strip(description.s) == [] then
      StripEmptyIffBlank(name.s);
      StripEmptyIffBlank(if description.JStr? then description.s else []);
      Err(InvalidProductDataError(DescriptionNotText))
    else
      StripEmptyIffBlank(name.s);
      StripEmptyIffBlank(description.s);
      Ok(Product(id.uuid, name.s, description.s, offers))
  }

  /** The `offers` value `Product.from_dict` iterates: `data.get("offers", [])`. */
  function OffersEntry(fields: map<string, Json>): Json
  {
    if "offers" in fields then fields["offers"] else JArr([])
  }

  /** Independent description of the dictionaries `Product.from_dict` accepts. */
  ghost predicate WellFormedProduct(data: Json)
  {
    && data.JObj?
    && "id" in data.fields && data.fields["id"].JStr? && IsUuidText(data.fields["id"].s)
    && "name" in data.fields && NonBlankText(data.fields["name"])
    && "description" in data.fields && NonBlankText(data.fields["description"])
    && IteratesToOffers(OffersEntry(data.fields))
  }

  /** `Product.from_dict(data)`. Only the nested offers go through
      `Offer.from_dict`'s handlers: a missing key or a malformed id of the
      product itself escapes as the raw Python exception. The arguments are
      evaluated in order, id, name, description, offers, before the
      constructor's own checks run. */
  function ProductFromDict(data: Json): (r: Result<Product, Error>)
    ensures r.Ok? <==> WellFormedProduct(data)
    ensures !data.JObj? ==> r == Err(Uncaught(TypeError))
    ensures data.JObj? && "id" !in data.fields ==> r == Err(Uncaught(KeyError("id")))
    ensures data.JObj? && "id" in data.fields && data.fields["id"].JStr? && IsUuidText(data.fields["id"].s) ==>
      && ("name" !in data.fields ==> r == Err(Uncaught(KeyError("name"))))
      && ("name" in data.fields && "description" !in data.fields ==>
            r == Err(Uncaught(KeyError("description"))))
    ensures r.Ok? ==>
      && data.JObj?
      && "id" in data.fields && data.fields["id"] == JStr(r.value.id.text) && IsUuidText(r.value.id.text)
      && "name" in data.fields && data.fields["name"] == JStr(r.value.name) && !Blank(r.value.name)
      && "description" in data.fields && data.fields["description"] == JStr(r.value.description)
      && !Blank(r.value.description)
    ensures r.Ok? && "offers" !in data.fields ==> r.value.offers == []
    ensures r.Ok? && "offers" in data.fields && data.fields["offers"].JArr? ==>
      var items := data.fields["offers"].items;
      |r.value.offers| == |items| && forall i :: 0 <= i < |items| ==> ParseOffer(items[i]) == Ok(r.value.offers[i])
    ensures data.JObj? && "id" in data.fields && data.fields["id"].JStr? && !IsUuidText(data.fields["id"].s) ==>
      r == Err(Uncaught(ValueError))
  {
    match Subscript(data, "id")
    case Err(e) => Err(Uncaught(e))
    case Ok(rawId) =>
      match ParseUuid(rawId)
      case Err(e) => Err(Uncaught(e))
      case Ok(id) =>
        match Subscript(data, "name")
        case Err(e) => Err(Uncaught(e))
        case Ok(name) =>
          match Subscript(data, "description")
          case Err(e) => Err(Uncaught(e))
          case Ok(description) =>
            match ParseOfferIterable(OffersEntry(data.fields))
            case Err(e) => Err(e)
            case Ok(offers) => NewProduct(UuidArg(id), name, description, offers)
  }

  /** A product dictionary with a valid id, name and description but an offer
      list holding an element `Offer.from_dict` rejects is rejected with the
      error of the first such element. */
  lemma ProductFromDictRejectsBadOffer(data: Json, k: nat)
    requires data.JObj? && "id" in data.fields && data.fields["id"].JStr? && IsUuidText(data.fields["id"].s)
    requires "name" in data.fields && "description" in data.fields
    requires "offers" in data.fields && data.fields["offers"].JArr?
    requires k < |data.fields["offers"].items| && !WellFormedOffer(data.fields["offers"].items[k])
    ensures var r := ProductFromDict(data);
            r.Err? && exists i :: 0 <= i <= k && ParseOffer(data.fields["offers"].items[i]) == Err(r.error)
  {
  }
}

=== FILE: python.dfy ===
/**
 The pieces of Python semantics the SDK leans on, as values: optional and
 fallible results, JSON documents as `json.loads` produces them, the built-in
 exceptions the SDK either catches or lets escape, truthiness, dictionary
 subscripting and `str.strip`.
 */
module Python {

  datatype Option<+T> = None | Some(value: T)

  datatype Result<+T, +E> = Ok(value: T) | Err(error: E)

  /** The built-in exceptions that can arise inside the modelled code. */
  datatype PyException =
    | KeyError(key: string)
    | ValueError
    | TypeError
    | AttributeError
    | JSONDecodeError
    | OSError

  /** A decoded JSON document. Integers and floats are distinct kinds, as they
      are after `json.loads`; booleans are their own kind. */
  datatype Json =
    | JNull
    | JBool(b: bool)
    | JInt(i: int)
    | JFloat(r: real)
    | JStr(s: string)
    | JArr(items: seq<Json>)
    | JObj(fields: map<string, Json>)

  /** Python's `bool(v)` on a decoded JSON value. */
  predicate Truthy(v: Json)
  {
    match v
    case JNull => false
    case JBool(b) => b
    case JInt(i) => i != 0
    case JFloat(r) => r != 0.0
    case JStr(s) => |s| > 0
    case JArr(items) => |items| > 0
    case JObj(fields) => |fields| > 0
  }

  /** `v[key]` with a string key: only an object can be subscripted by a
      string; a missing key raises `KeyError`. */
  function Subscript(v: Json, key: string): (r: Result<Json, PyException>)
    ensures r.Ok? <==> v.JObj? && key in v.fields
    ensures r.Ok? ==> r.value == v.fields[key]
    ensures r.Err? && v.JObj? ==> r.error == KeyError(key)
    ensures r.Err? && !v.JObj? ==> r.error == TypeError
  {
    match v
    case JObj(fields) => if key in fields then Ok(fields[key]) else Err(KeyError(key))
    case _ => Err(TypeError)
  }

  /** The characters for which Python's `str.isspace` holds. */
  predicate IsSpace(c: char)
  {
    || c == ' ' || c == '\t' || c == '\n' || c == '\r'
    || c == '\U{000B}' || c == '\U{000C}'
    || ('\U{001C}' <= c <= '\U{001F}')
    || c == '\U{0085}' || c == '\U{00A0}' || c == '\U{1680}'
    || ('\U{2000}' <= c <= '\U{200A}')
    || c == '\U{2028}' || c == '\U{2029}' || c == '\U{202F}' || c == '\U{205F}'
    || c == '\U{3000}'
  }

  /** Every character of `s` is whitespace (the empty string included). */
  ghost predicate Blank(s: string)
  {
    forall i :: 0 <= i < |s| ==> IsSpace(s[i])
  }

  /** `s.lstrip()`: drops the leading whitespace and nothing else. */
  function StripStart(s: string): (r: string)
    ensures |r| <= |s| && r == s[|s| - |r|..]
    ensures forall i :: 0 <= i < |s| - |r| ==> IsSpace(s[i])
    ensures |r| > 0 ==> !IsSpace(r[0])
    decreases |s|
  {
    if |s| > 0 && IsSpace(s[0]) then StripStart(s[1..]) else s
  }

  /** `s.rstrip()`: drops the trailing whitespace and nothing else. */
  function StripEnd(s: string): (r: string)
    ensures |r| <= |s| && r == s[..|r|]
    ensures forall i :: |r| <= i < |s| ==> IsSpace(s[i])
    ensures |r| > 0 ==> !IsSpace(r[|r| - 1])
    decreases |s|
  {
    if |s| > 0 && IsSpace(s[|s| - 1]) then StripEnd(s[..|s| - 1]) else s
  }

  /** `s.strip()`. */
  function Strip(s: string): string
  {
    StripEnd(StripStart(s))
  }

  /** `not s.strip()` holds exactly for the blank strings. */
  lemma StripEmptyIffBlank(s: string)
    ensures Strip(s) == [] <==> Blank(s)
  {
  }
}
